=== FILE: README.md ===
# Nocturne access control and audit trail, modelled in Dafny

This project models the access-control core of the Nocturne gallery (`app.js`). It is written as a
functional state machine. The state (`Gallery.State`) has two parts:

- the database handle `gallery.db`, which is absent until the database opens. It holds the `users`
  store (records keyed by an auto-incremented id, with a unique index on `username`) and the
  `auditLog` store (entries in insertion order);
- the session fields `currentUser` and `currentUserRole`. These start as `null` and `'guest'`.

The model is made of pure functions and a few methods. An operation that changes the state maps it
to a `Step`, which is the successor state plus the outcome shown to the operator; `AUDIT.log` maps
a state to a state; the user table and the audit view are methods that compute rows or entries
from a state. The operations are:

- login (`AttemptLogin`), which covers bootstrapping the first admin and granting access;
- the admin console's user table, role change, deletion, creation and password change;
- the audit view;
- the log cleanup.

The host supplies an `Env` for each step:

- PBKDF2 is an uninterpreted function `Kdf` from (password, salt, iterations) to bytes;
- `generateSalt` is the 16-byte salt supplied in `Env.salt`;
- `Date.now()` is `Env.now`.

`confirm()` dialogs are boolean parameters. `Valid` states what the database guarantees: every key
is below the key generator, and usernames are unique. Every operation that writes, the password
change as the code runs it included, is proved to preserve it. The audit log is append-only
(`LogExtends`): every operation except the log cleanup keeps the old log as a prefix.

Modules: `Common` (option, byte), `Text` (`trim`), `Credentials` (salt, key derivation, hash
comparison), `Audit` (entries, newest-first view), `Directory` (records, username lookup),
`Gallery` (state, `AUDIT.log`, `handleLogCleanup`), `Access` (`AuthMancer`), `Admin`
(`AdminMancer`), `Lifecycle` (properties spanning several operations).

In these places the model follows the code:

- Login derives the candidate hash with the global `PBKDF2_ITERATIONS`. It does not use the
  record's stored `iterations` (app.js:288-296). The stored field is written but never read.
- The admin operations do not re-check the caller's role. They also do not refuse to change the
  role of, or delete, the session's own operator. Two things in the UI provide the protection: the
  console opens only for an admin session (app.js:483), and the user table disables those controls
  on the operator's own row (app.js:544-561). `LoadUserList` states that rule.
- A forced reset may target any operator, the admin's own included.
- The login ID is trimmed before the emptiness check and the lookup, and so is the ID in creation
  and forced resets. Passwords are not trimmed.
- Deleting an id that has no record still succeeds in the store. It writes `USER_DELETE_SUCCESS`
  naming `Unknown`.

## Model

| member | source | states |
|---|---|---|
| Text.Trim | app.js:302 | the trimmed ID is the slice after the leading whitespace, with whitespace after it and non-whitespace at both ends; it is empty exactly when the input is all whitespace |
| Text.TrimIdempotent | app.js:302 | trimming an already trimmed ID changes nothing |
| Text.LeadingSpace | app.js:302 | counts exactly the whitespace characters that trim drops from the front |
| Text.TrailingSpace | app.js:302 | counts exactly the whitespace characters that trim drops from the end |
| Credentials.HashPassword | app.js:279-297 | the derived key depends only on the password and salt, always at the global 200,000 iterations |
| Credentials.EveryAgrees | app.js:345 | the `every` callback accepts iff every remaining index holds equal bytes |
| Credentials.HashesMatch | app.js:344-345 | the fallback comparison holds iff the lengths are equal and the bytes agree at every index |
| Credentials.HashesMatchIsEquality | app.js:340-346 | the fallback comparison is exactly equality of the two byte sequences |
| Audit.NewestFirst | app.js:760-782 | the view holds min(log size, limit) entries, and entry k is the k-th newest |
| Audit.NewestFirstAfterAppend | app.js:761-766 | an entry appended to the log heads the view, followed by the previous view |
| Audit.NewestFirstKeepsWholeLog | app.js:764-766 | when the whole log fits under the limit, the view holds exactly the log's entries |
| Audit.ReverseKeepsEntries | app.js:761 | reading the log backwards with the cursor visits the same entries |
| Directory.FindFrom | app.js:316-318 | the scan returns the first id in range whose record has the name, or none when no id in range has it |
| Directory.LookupFindsOwner | app.js:981-982 | given keys below the generator and unique usernames, the lookup returns exactly the record with the name and misses only when no record has it |
| Gallery.AuditLog | app.js:14-23 | `AUDIT.log` appends exactly one entry with the given fields when a database is open; it is a no-op without one; users and session are unchanged |
| Gallery.AuditLogHeadsView | app.js:761-766 | after logging, the admin view lists the new entry first |
| Gallery.AuditLogPreservesValid | app.js:14-23 | logging keeps the store's key and uniqueness guarantees |
| Gallery.AddUser | app.js:392 | an add stores the record under the key generator's next id, keeps every other record, advances the generator by one, and leaves the audit log alone |
| Gallery.AddUserKeepsValid | app.js:981-982 | adding an unused username keeps the guarantees, grows the directory by one, and makes the name resolve to the new id |
| Gallery.HandleLogCleanup | app.js:1139-1153 | cleanup happens exactly when confirmed with an open database; otherwise nothing changes; the session is untouched |
| Gallery.CleanupLeavesOnlyItsEntry | app.js:1142-1147 | after a cleanup the log holds exactly one successful `LOG_CLEANUP_SUCCESS` entry naming the session operator; the view shows only that entry; users are unchanged |
| Gallery.CleanupPreservesValid | app.js:1142-1147 | cleanup keeps the store's guarantees |
| Access.GetUserCount | app.js:368-375 | the count is zero exactly when there is no database or the users store is empty |
| Access.AccessGranted | app.js:405-412 | access sets the session to the record's username and role (viewer when missing); it appends one `LOGIN_SUCCESS` entry carrying the raw role and leaves users unchanged; the old log is kept as a prefix |
| Access.RegisterInitialUser | app.js:377-403 | with no database nothing changes; otherwise the users gain exactly the issued admin record under the next id, the log gains `REGISTER_SUCCESS` then `LOGIN_SUCCESS`, and the session becomes that admin; the old log is kept as a prefix |
| Access.AttemptLogin | app.js:301-353 | login is rejected as missing input exactly when the trimmed ID or the key is empty; every failure leaves the state unchanged; registration happens only on an empty directory; a success opens the session under the trimmed ID; without an open database a well-formed login reports the failure and changes nothing; the old log is kept as a prefix |
| Access.LoginBootstrapsFirstAdmin | app.js:377-397 | on an empty directory a well-formed login stores one admin record with the global work factor and the derived hash, logs `REGISTER_SUCCESS` then `LOGIN_SUCCESS`, and opens an admin session |
| Access.LoginUnknownOperatorFails | app.js:323-331 | an unknown ID in a non-empty directory fails and changes nothing |
| Access.LoginChecksStoredHash | app.js:334-353 | for an existing operator, access is granted iff the key, derived with the stored salt and the global work factor, equals the stored hash; success sets the session and appends `LOGIN_SUCCESS` after the unchanged old log; failure changes nothing |
| Access.LoginIgnoresStoredIterations | app.js:288-296 | changing a record's stored `iterations` never changes any login outcome |
| Access.LoginPreservesValid | app.js:386-392 | every login, bootstrap included, keeps the store's guarantees |
| Admin.KeyBound | app.js:519 | yields a key above every stored key, so an upward scan from 0 reaches every record `getAll` returns |
| Admin.CollectRows | app.js:519-522 | the scan yields one row per stored id, in strictly increasing id order, each built from that id's record |
| Admin.LoadUserList | app.js:513-565 | lists every stored operator once, in key order, with its name and role; the role select and delete button are disabled exactly on the row whose username is the session's operator |
| Admin.UpdateUserRole | app.js:567-600 | the role changes exactly when confirmed with an open database and a stored id; a refusal, a missing database or a missing id changes nothing; the id is reported missing exactly when confirmed with an open database and no record; the session is untouched; the old log is kept as a prefix |
| Admin.RoleChangeTouchesOnlyTarget | app.js:578-593 | a confirmed change rewrites only the target's role, keeps its other fields and every other record, and appends one `USER_ROLE_CHANGE` entry naming the target after the unchanged old log |
| Admin.RoleChangePreservesValid | app.js:586-587 | role changes keep the store's guarantees |
| Admin.DeleteUser | app.js:602-622 | deletion happens exactly when confirmed with an open database; otherwise nothing changes; the old log is kept as a prefix |
| Admin.DeleteRemovesExactlyTarget | app.js:609-613 | a confirmed delete removes exactly the given id and keeps every other record; after the unchanged old log, the one `USER_DELETE_SUCCESS` entry names the username read before removal, or `Unknown` |
| Admin.DeletePreservesValid | app.js:612 | deletion keeps the store's guarantees |
| Admin.HandleUserCreation | app.js:626-668 | creation is rejected as missing input exactly when the trimmed ID or the key is empty; that rejection and a missing database change nothing; every outcome other than success leaves the users store unchanged; the old log is kept as a prefix |
| Admin.GenericCreateFails | app.js:659-663 | an `add` failing for a reason other than the unique index leaves users unchanged and appends one `USER_CREATE_FAIL` entry with the generic message |
| Admin.DuplicateCreateFails | app.js:659-663 | creating a taken ID leaves users unchanged and appends one `USER_CREATE_FAIL` entry with the "ya existe" message, which differs from the generic one |
| Admin.CreateAddsExactlyOne | app.js:637-657 | a successful creation adds exactly one record (trimmed ID, requested role, fresh salt, derived hash, global work factor), keeps every other record, and appends `USER_CREATE_SUCCESS` after the unchanged old log |
| Admin.CreatePreservesValid | app.js:651 | creation keeps the store's guarantees, including username uniqueness |
| Admin.HandleChangePassword | app.js:672-745 | self mode rejects an empty or unconfirmed key; forced mode rejects an empty ID or key; a declined forced-reset confirmation is reported as cancelled; a save or a missing-target entry happens only for accepted, confirmed input with an open database and a target ID; every other outcome changes nothing; the old log is kept as a prefix |
| Admin.PasswordChangeMissingTargetFails | app.js:706-712 | a missing target appends one failed `PASSWORD_CHANGE_FAIL` entry after the unchanged old log and leaves users unchanged |
| Admin.PasswordChangeOnlyResalts | app.js:714-726 | success replaces only the target's salt and hash (the new key derived with the fresh salt); username, role, iterations and all other records are kept; one `PASSWORD_CHANGE_SUCCESS` entry is appended after the unchanged old log |
| Admin.PasswordChangePreservesValid | app.js:718-721 | password changes keep the store's guarantees |
| Admin.HandleChangePasswordAsWritten | app.js:706-736 | as the code runs, a password change never reports success and never alters the users store; only a missing target writes to the log; the old log is kept as a prefix |
| Admin.PasswordChangeAsWrittenPreservesValid | app.js:706-736 | the password change as the code runs it keeps the store's guarantees |
| Admin.ChangePasswordAsWrittenNeverSaves | app.js:714-721 | for an existing target with accepted input, the intended change re-salts and logs success, while the code as written leaves the record and the log unchanged |
| Admin.LoadAuditLog | app.js:750-784 | the cursor loop lists min(log size, 50) entries, newest first, and nothing without a database |
| Lifecycle.CreatedOperatorCanLogIn | app.js:334-349 | an operator created through the console logs in with the same ID and key and gets the role chosen at creation |
| Lifecycle.ChangedKeyLogsIn | app.js:714-721 | after a successful password change, the target logs in with the new key and keeps its role |
| Lifecycle.BootstrapHappensOnce | app.js:323-330 | after the first login registers an admin, a login under another ID fails as unknown and creates nothing |
| Lifecycle.OnlyCleanupRewritesLog | app.js:14-23 | every console action except the log cleanup keeps the old audit log as a prefix; an unconfirmed cleanup changes nothing and a confirmed one leaves a single entry |
| Lifecycle.EveryActionPreservesValid | app.js:981-982 | every console action keeps the key bound and the unique username index |
| Lifecycle.RunWithoutCleanupKeepsLog | app.js:14-23 | over any sequence of actions without a cleanup, every audit entry present at the start stays at its position |
| Lifecycle.RunPreservesValid | app.js:981-982 | any sequence of console actions keeps the store's guarantees |

## Findings

| source | as written | input that shows it | evidently intended | confidence | as-written member | corrected member |
|---|---|---|---|---|---|---|
| app.js:706-721 | the `async` success handler of the lookup awaits `hashPassword` before `userStore.put`; the `users` transaction has no pending request during that wait and commits, so the `put` throws `TransactionInactiveError` in an unhandled rejection: nothing is saved, no `PASSWORD_CHANGE_SUCCESS` is logged | any self change with a matching non-empty key, or confirmed forced reset, whose target operator exists | the record gets the fresh salt and the new derived hash, and one `PASSWORD_CHANGE_SUCCESS` entry is appended | medium, not executed | Admin.HandleChangePasswordAsWritten | Admin.HandleChangePassword |

The rest of the model uses the corrected `Admin.HandleChangePassword`. `Admin.PasswordChangeOnlyResalts` and `Lifecycle.ChangedKeyLogsIn` state the intended behaviour. `Admin.ChangePasswordAsWrittenNeverSaves` exhibits the difference.

## Left out

- The DOM and UI wiring is not modelled. This covers the modals, on-screen messages, `setLoading`, `toggleAdminButton`, the role gate in `showModal` and event delegation. It is presentation around the decisions modelled here. Only the audit messages are modelled, because they are stored.
- The refresh that `AUDIT.log` triggers in an open admin view is left out. It is a UI side effect.
- IndexedDB callbacks and asynchrony are left out. Each operation is one atomic step. So is the interleaving between `getUserCount` and `registerInitialUser`.
- `deleteUser` issues `delete(id)` twice. The second delete is a no-op, so it is modelled as one delete.
- Storage failures are not modelled, with one exception: creation takes a flag for an `add` that fails on something other than the unique index. Not modelled: `putRequest.onerror` throwing in the role change, `USER_DELETE_FAIL`, `registerInitialUser`'s `tx.onerror`, and the cleanup's `tx.onerror`.
- Web Crypto is external:
  - PBKDF2 is uninterpreted. Its 64-byte output length is not assumed.
  - Salts come from the host.
  - Hashing exceptions are not modelled. These are the catch branches that report a crypto error.
  - The `timingSafeEqual` branch is not modelled. It calls a primitive that `SubtleCrypto` does not define. Only the fallback comparison is modelled.
- Timers, panic mode, auto-sleep and the rendering of timestamps are left out. They are wall-clock and event driven. Timestamps are opaque integers.
- Image processing, `image-worker.js`, `AudioEngine`, `DataMancer` backup and import, `updateStorage` and the `renderGrid` sort are not part of this model. They are outside the access-control core.
- Admin.HandleChangePassword: models the intended save. The code as written aborts it (see Findings). That follows from the asynchronous transaction lifetime, which the atomic-step model does not otherwise represent.
- Audit entries from other subsystems cannot be represented. `EventType` has only the nine tags the access-control core writes. The same store also receives `PANIC`, `LOCK`, `UPLOAD_*`, `BACKUP_*`, `IMPORT_*`, `DELETE` and `USER_DELETE_FAIL`. The view and cleanup lemmas do not depend on the tags.
- No operation revokes a live session after its operator's role changes or the operator is deleted. The application has no such operation, and there is no logout either.

=== FILE: access.dfy ===
/** `AuthMancer`: login, bootstrap of the first operator, and granting a session. */
module Access {
  import opened Common
  import opened Text
  import opened Credentials
  import opened Audit
  import opened Directory
  import opened Gallery

  /** What the login form reports. */
  datatype LoginOutcome =
    | Registered       // empty directory: the first operator was created as admin
    | LoggedIn         // existing operator, key matched
    | MissingInput     // operator ID (after trimming) or key empty
    | UnknownOperator  // no such operator in a non-empty directory
    | InvalidKey       // derived hash differs from the stored one
    | NoDatabase       // no open database: the transaction call throws and is caught

  /** `getUserCount`: the number of stored operators, 0 when there is no database. */
  function GetUserCount(db: Option<Store>): (n: nat)
    ensures n == 0 <==> db.None? || db.value.users == map[]
  {
    if db.None? then 0 else |db.value.users|
  }

  /** How `${userRecord.role}` renders, `undefined` for a record without a role. */
  function RoleText(role: Option<Role>): string
  {
    match role
    case Some(r) => RoleName(r)
    case None => "undefined"
  }

  /** The `role` value the login entry's data carries: the raw field, not the fallback. */
  function RoleValue(role: Option<Role>): Option<string>
  {
    match role
    case Some(r) => Some(RoleName(r))
    case None => None
  }

  /** `accessGranted(userRecord)`: record `LOGIN_SUCCESS`, then open the session as the
      record's operator with its role, or viewer when the record has none. */
  function AccessGranted(st: State, now: int, rec: UserRecord): (r: State)
    ensures r.session.currentUser == Some(rec.username)
    ensures rec.role.Some? ==> r.session.currentUserRole == Operator(rec.role.value)
    ensures rec.role.None? ==> r.session.currentUserRole == Operator(Viewer)
    ensures r.db.Some? <==> st.db.Some?
    ensures st.db.Some? ==> r.db.value.users == st.db.value.users
    ensures st.db.Some? ==> |r.db.value.audit| == |st.db.value.audit| + 1
                            && r.db.value.audit[..|st.db.value.audit|] == st.db.value.audit
                            && r.db.value.audit[|st.db.value.audit|].kind == LoginSuccess
                            && r.db.value.audit[|st.db.value.audit|].data == map["user" := Some(rec.username), "role" := RoleValue(rec.role)]
    ensures LogExtends(st, r)
  {
    var logged := AuditLog(st, now, LoginSuccess,
                           "User " + rec.username + " logged in with role " + RoleText(rec.role) + ".",
                           true, map["user" := Some(rec.username), "role" := RoleValue(rec.role)]);
    logged.(session := Session(Some(rec.username), Operator(EffectiveRole(rec.role))))
  }

  /** `registerInitialUser`: store an admin record for the supplied credentials, record
      `REGISTER_SUCCESS`, then grant access to it. */
  function RegisterInitialUser(st: State, env: Env, username: string, password: string): (r: State)
    ensures st.db.None? ==> r == st
    ensures st.db.Some? ==>
              var s := st.db.value;
              && r.db.Some?
              && r.db.value.users == s.users[s.nextUserId := Issue(env, username, password, Admin)]
              && r.db.value.nextUserId == s.nextUserId + 1
              && |r.db.value.audit| == |s.audit| + 2
              && r.db.value.audit[..|s.audit|] == s.audit
              && r.db.value.audit[|s.audit|].kind == RegisterSuccess
              && r.db.value.audit[|s.audit| + 1].kind == LoginSuccess
    ensures st.db.Some? ==> r.session == Session(Some(username), Operator(Admin))
    ensures LogExtends(st, r)
  {
    match st.db
    case None => st
    case Some(s) =>
      var rec := Issue(env, username, password, Admin);
      var added := st.(db := Some(AddUser(s, rec)));
      var logged := AuditLog(added, env.now, RegisterSuccess, "Initial admin user " + username + " created.",
                             true, map["user" := Some(username), "role" := Some("admin")]);
      AccessGranted(logged, env.now, rec)
  }

  /** `attemptLogin` with the form's raw operator ID and key. */
  function AttemptLogin(st: State, env: Env, rawUsername: string, password: string): (r: Step<LoginOutcome>)
    ensures r.outcome == MissingInput <==> Trim(rawUsername) == [] || password == []
    ensures r.outcome != Registered && r.outcome != LoggedIn ==> r.next == st
    ensures r.outcome == Registered ==> st.db.Some? && st.db.value.users == map[]
    ensures st.db.None? ==> r.next == st
    ensures LogExtends(st, r.next)
    ensures st.db.None? && Trim(rawUsername) != [] && password != [] ==> r.outcome == NoDatabase
    ensures r.outcome == Registered || r.outcome == LoggedIn ==>
              r.next.session.currentUser == Some(Trim(rawUsername))
  {
    var username := Trim(rawUsername);
    if username == [] || password == [] then Step(st, MissingInput)
    else match st.db
      case None => Step(st, NoDatabase)
      case Some(s) =>
        match FindUser(s, username)
        case None =>
          if GetUserCount(st.db) == 0 then Step(RegisterInitialUser(st, env, username, password), Registered)
          else Step(st, UnknownOperator)
        case Some(id) =>
          var rec := s.users[id];
          if HashesMatch(HashPassword(env.kdf, password, rec.salt), rec.passwordHash)
          then Step(AccessGranted(st, env.now, rec), LoggedIn)
          else Step(st, InvalidKey)
  }

  /** Bootstrap: on an empty directory any well-formed login creates one admin record with
      the global work factor and a hash derived from the supplied salt, logs
      `REGISTER_SUCCESS` then `LOGIN_SUCCESS`, and opens an admin session. */
  lemma LoginBootstrapsFirstAdmin(st: State, env: Env, rawUsername: string, password: string)
    requires Valid(st)
    requires st.db.Some? && st.db.value.users == map[]
    requires Trim(rawUsername) != [] && password != []
    ensures var r := AttemptLogin(st, env, rawUsername, password);
            var s := st.db.value;
            var name := Trim(rawUsername);
            && r.outcome == Registered
            && r.next.db.Some?
            && r.next.db.value.users
               == map[s.nextUserId := UserRecord(name, env.kdf(password, env.salt, PBKDF2_ITERATIONS), env.salt,
                                                 PBKDF2_ITERATIONS, Some(Admin))]
            && r.next.session == Session(Some(name), Operator(Admin))
            && |r.next.db.value.audit| == |s.audit| + 2
            && r.next.db.value.audit[..|s.audit|] == s.audit
            && r.next.db.value.audit[|s.audit|].kind == RegisterSuccess
            && r.next.db.value.audit[|s.audit| + 1].kind == LoginSuccess
  {
  }

  /** An unknown operator ID in a non-empty directory fails and creates nothing. */
  lemma LoginUnknownOperatorFails(st: State, env: Env, rawUsername: string, password: string)
    requires Valid(st)
    requires st.db.Some? && st.db.value.users != map[]
    requires Trim(rawUsername) != [] && password != []
    requires !HasUsername(st.db.value.users, Trim(rawUsername))
    ensures AttemptLogin(st, env, rawUsername, password) == Step(st, UnknownOperator)
  {
  }

  /** For an existing operator, access is granted exactly when the key, derived with the
      record's salt and the global work factor (not the record's `iterations`), equals the
      stored hash. Success opens the session as that operator with the record's role,
      viewer when it has none, and appends one `LOGIN_SUCCESS` entry; the users store is
      unchanged either way. */
  lemma LoginChecksStoredHash(st: State, env: Env, rawUsername: string, password: string, id: nat)
    requires Valid(st)
    requires st.db.Some? && id in st.db.value.users
    requires st.db.value.users[id].username == Trim(rawUsername)
    requires Trim(rawUsername) != [] && password != []
    ensures var r := AttemptLogin(st, env, rawUsername, password);
            var rec := st.db.value.users[id];
            && (r.outcome == LoggedIn <==> env.kdf(password, rec.salt, PBKDF2_ITERATIONS) == rec.passwordHash)
            && (r.outcome != LoggedIn ==> r.outcome == InvalidKey && r.next == st)
            && r.next.db.Some? && r.next.db.value.users == st.db.value.users
            && (r.outcome == LoggedIn ==>
                  && r.next.session == Session(Some(rec.username), Operator(EffectiveRole(rec.role)))
                  && |r.next.db.value.audit| == |st.db.value.audit| + 1
                  && r.next.db.value.audit[..|st.db.value.audit|] == st.db.value.audit
                  && r.next.db.value.audit[|st.db.value.audit|].kind == LoginSuccess)
  {
  }

  /** The stored `iterations` field plays no part in login: two directories that differ
      only in one record's work factor give the same login outcome. */
  lemma LoginIgnoresStoredIterations(st: State, env: Env, rawUsername: string, password: string, id: nat, n: nat)
    requires Valid(st) && st.db.Some? && id in st.db.value.users
    ensures var s := st.db.value;
            var st' := st.(db := Some(s.(users := s.users[id := s.users[id].(iterations := n)])));
            AttemptLogin(st', env, rawUsername, password).outcome == AttemptLogin(st, env, rawUsername, password).outcome
  {
    var s := st.db.value;
    var users' := s.users[id := s.users[id].(iterations := n)];
    var name := Trim(rawUsername);
    assert forall x :: x in users' ==> users'[x].username == s.users[x].username && users'[x].salt == s.users[x].salt
                                       && users'[x].passwordHash == s.users[x].passwordHash;
    assert HasUsername(users', name) <==> HasUsername(s.users, name);
    LookupFindsOwner(s.users, s.nextUserId, name);
    LookupFindsOwner(users', s.nextUserId, name);
  }

  /** Every login keeps the store's guarantees. */
  lemma LoginPreservesValid(st: State, env: Env, rawUsername: string, password: string)
    requires Valid(st)
    ensures Valid(AttemptLogin(st, env, rawUsername, password).next)
  {
  }
}

=== FILE: admin.dfy ===
/** `AdminMancer`: the user table, role changes, deletion, creation, password changes and
    the audit view. As in the application, these operations do not re-check the caller's
    role: the console that exposes them opens only for an admin session. */
module Admin {
  import opened Common
  import opened Text
  import opened Credentials
  import opened Audit
  import opened Directory
  import opened Gallery

  // ---------------------------------------------------------------------------------------
  // User table

  /** One row of the user table: the operator, its role select and its delete button. */
  datatype UserRow = UserRow(id: nat, username: string, role: Option<Role>, roleSelectDisabled: bool, deleteDisabled: bool)

  /** The row for the operator of the live session is the one whose controls are disabled. */
  predicate IsSessionOperator(session: Session, username: string)
  {
    session.currentUser == Some(username)
  }

  function RowFor(session: Session, id: nat, rec: UserRecord): UserRow
  {
    var own := IsSessionOperator(session, rec.username);
    UserRow(id, rec.username, rec.role, own, own)
  }

  /** A key above every stored key, so that scanning ids upward from 0 meets them all. */
  method KeyBound(users: Users) returns (bound: nat)
    ensures forall id :: id in users ==> id < bound
  {
    bound := 0;
    var pending := users.Keys;
    while pending != {}
      invariant pending <= users.Keys
      invariant forall id :: id in users && id !in pending ==> id < bound
      decreases pending
    {
      var id :| id in pending;
      if id >= bound {
        bound := id + 1;
      }
      pending := pending - {id};
    }
  }

  /** The `getAll` scan: the row of every stored id below `bound`, in increasing id order. */
  method CollectRows(users: Users, session: Session, bound: nat) returns (rows: seq<UserRow>)
    requires forall id :: id in users ==> id < bound
    ensures forall k :: 0 <= k < |rows| ==> rows[k].id in users && rows[k] == RowFor(session, rows[k].id, users[rows[k].id])
    ensures forall k, l :: 0 <= k < l < |rows| ==> rows[k].id < rows[l].id
    ensures forall id :: id in users ==> exists k :: 0 <= k < |rows| && rows[k].id == id
  {
    rows := [];
    var id := 0;
    while id < bound
      invariant id <= bound
      invariant forall k :: 0 <= k < |rows| ==>
                  rows[k].id < id && rows[k].id in users && rows[k] == RowFor(session, rows[k].id, users[rows[k].id])
      invariant forall k, l :: 0 <= k < l < |rows| ==> rows[k].id < rows[l].id
      invariant forall j :: 0 <= j < id && j in users ==> exists k :: 0 <= k < |rows| && rows[k].id == j
    {
      if id in users {
        var before := rows;
        rows := rows + [RowFor(session, id, users[id])];
        assert rows[|rows| - 1].id == id;
        assert forall k :: 0 <= k < |before| ==> rows[k] == before[k];
      }
      id := id + 1;
    }
  }

  /** `loadUserList`: every stored operator in key order (`getAll`), with the role select and
      the delete button disabled exactly on the session operator's own row. */
  method LoadUserList(st: State) returns (rows: seq<UserRow>)
    ensures st.db.None? ==> rows == []
    ensures st.db.Some? ==>
              forall k :: 0 <= k < |rows| ==>
                && rows[k].id in st.db.value.users
                && rows[k].username == st.db.value.users[rows[k].id].username
                && rows[k].role == st.db.value.users[rows[k].id].role
    ensures st.db.Some? ==>
              forall id :: id in st.db.value.users ==> exists k :: 0 <= k < |rows| && rows[k].id == id
    ensures forall k, l :: 0 <= k < l < |rows| ==> rows[k].id < rows[l].id
    ensures forall k :: 0 <= k < |rows| ==>
              && (rows[k].roleSelectDisabled <==> st.session.currentUser == Some(rows[k].username))
              && (rows[k].deleteDisabled <==> st.session.currentUser == Some(rows[k].username))
  {
    if st.db.None? {
      return [];
    }
    var users := st.db.value.users;
    var bound := KeyBound(users);
    rows := CollectRows(users, st.session, bound);
  }

  // ---------------------------------------------------------------------------------------
  // Role change

  datatype RoleChangeOutcome = RoleChanged | RoleChangeCancelled | RoleTargetMissing | RoleChangeNoDatabase

  /** `updateUserRole(id, newRole)` after the operator answered the confirmation. */
  function UpdateUserRole(st: State, now: int, id: nat, newRole: Role, confirmed: bool): (r: Step<RoleChangeOutcome>)
    ensures r.outcome != RoleChanged ==> r.next == st
    ensures r.outcome == RoleTargetMissing <==> confirmed && st.db.Some? && id !in st.db.value.users
    ensures r.outcome == RoleChanged <==> confirmed && st.db.Some? && id in st.db.value.users
    ensures LogExtends(st, r.next)
    ensures r.next.session == st.session
  {
    if !confirmed then Step(st, RoleChangeCancelled)
    else match st.db
      case None => Step(st, RoleChangeNoDatabase)
      case Some(s) =>
        if id !in s.users then Step(st, RoleTargetMissing)
        else
          var rec := s.users[id].(role := Some(newRole));
          var saved := st.(db := Some(s.(users := s.users[id := rec])));
          Step(AuditLog(saved, now, UserRoleChange, "User " + rec.username + " role changed to " + RoleName(newRole) + ".",
                        true, map["admin" := st.session.currentUser, "targetUser" := Some(rec.username)]),
               RoleChanged)
  }

  /** A confirmed role change on a stored id rewrites that record's role and nothing else
      in the users store, and appends one `USER_ROLE_CHANGE` entry naming the target. */
  lemma RoleChangeTouchesOnlyTarget(st: State, now: int, id: nat, newRole: Role)
    requires st.db.Some? && id in st.db.value.users
    ensures var r := UpdateUserRole(st, now, id, newRole, true);
            var old_users := st.db.value.users;
            && r.outcome == RoleChanged
            && r.next.db.Some?
            && r.next.db.value.users.Keys == old_users.Keys
            && r.next.db.value.users[id].role == Some(newRole)
            && r.next.db.value.users[id].username == old_users[id].username
            && r.next.db.value.users[id].passwordHash == old_users[id].passwordHash
            && r.next.db.value.users[id].salt == old_users[id].salt
            && r.next.db.value.users[id].iterations == old_users[id].iterations
            && (forall other :: other in old_users && other != id ==> r.next.db.value.users[other] == old_users[other])
            && |r.next.db.value.audit| == |st.db.value.audit| + 1
            && r.next.db.value.audit[..|st.db.value.audit|] == st.db.value.audit
            && r.next.db.value.audit[|st.db.value.audit|].kind == UserRoleChange
            && r.next.db.value.audit[|st.db.value.audit|].data["targetUser"] == Some(old_users[id].username)
  {
  }

  /** Role changes never rename anyone, so they keep the store's guarantees. */
  lemma RoleChangePreservesValid(st: State, now: int, id: nat, newRole: Role, confirmed: bool)
    requires Valid(st)
    ensures Valid(UpdateUserRole(st, now, id, newRole, confirmed).next)
  {
  }

  // ---------------------------------------------------------------------------------------
  // Deletion

  datatype DeleteOutcome = UserDeleted | DeleteCancelled | DeleteNoDatabase

  /** The name `deleteUser` reads before removing: the record's username, or `Unknown`. */
  function NameBeforeDelete(users: Users, id: nat): string
  {
    if id in users then users[id].username else "Unknown"
  }

  /** `deleteUser(id)` after the operator answered the confirmation. Deleting an absent key
      succeeds in the store, so the success entry is written either way. */
  function DeleteUser(st: State, now: int, id: nat, confirmed: bool): (r: Step<DeleteOutcome>)
    ensures r.outcome != UserDeleted ==> r.next == st
    ensures r.outcome == UserDeleted <==> confirmed && st.db.Some?
    ensures LogExtends(st, r.next)
    ensures r.next.session == st.session
  {
    if !confirmed then Step(st, DeleteCancelled)
    else match st.db
      case None => Step(st, DeleteNoDatabase)
      case Some(s) =>
        var username := NameBeforeDelete(s.users, id);
        var removed := st.(db := Some(s.(users := s.users - {id})));
        Step(AuditLog(removed, now, UserDeleteSuccess, "User " + username + " deleted.",
                      true, map["admin" := st.session.currentUser, "deletedUser" := Some(username)]),
             UserDeleted)
  }

  /** A confirmed delete removes exactly the given id, and its `USER_DELETE_SUCCESS` entry
      names the operator read before removal, or `Unknown` when there was none. */
  lemma DeleteRemovesExactlyTarget(st: State, now: int, id: nat)
    requires st.db.Some?
    ensures var r := DeleteUser(st, now, id, true);
            var old_users := st.db.value.users;
            var e := r.next.db.value.audit[|st.db.value.audit|];
            && r.next.db.Some?
            && r.next.db.value.users.Keys == old_users.Keys - {id}
            && (forall other :: other in old_users && other != id ==> r.next.db.value.users[other] == old_users[other])
            && |r.next.db.value.audit| == |st.db.value.audit| + 1
            && r.next.db.value.audit[..|st.db.value.audit|] == st.db.value.audit
            && e.kind == UserDeleteSuccess
            && (id in old_users ==> e.data["deletedUser"] == Some(old_users[id].username))
            && (id !in old_users ==> e.data["deletedUser"] == Some("Unknown") && r.next.db.value.users == old_users)
  {
  }

  /** Deletion keeps the store's guarantees. */
  lemma DeletePreservesValid(st: State, now: int, id: nat, confirmed: bool)
    requires Valid(st)
    ensures Valid(DeleteUser(st, now, id, confirmed).next)
  {
  }

  // ---------------------------------------------------------------------------------------
  // Creation

  datatype CreateOutcome = UserCreated | CreateMissingInput | DuplicateUsername | CreateStoreError | CreateNoDatabase

  /** What the operator reads, and the audit entry records, when `add` fails on the
      unique index ... */
  const DUPLICATE_MESSAGE: string := "Error: El nombre de usuario ya existe."
  /** ... and when it fails for any other reason. */
  const GENERIC_CREATE_MESSAGE: string := "Error al crear usuario."

  /** `handleUserCreation` with the form's raw operator ID, key and selected role.
      `addFails` stands for a storage error other than the unique-index violation. */
  function HandleUserCreation(st: State, env: Env, rawUsername: string, password: string, role: Role, addFails: bool)
    : (r: Step<CreateOutcome>)
    ensures r.outcome == CreateMissingInput <==> Trim(rawUsername) == [] || password == []
    ensures r.outcome == CreateMissingInput || r.outcome == CreateNoDatabase ==> r.next == st
    ensures r.outcome != UserCreated && st.db.Some? ==> r.next.db.Some? && r.next.db.value.users == st.db.value.users
    ensures LogExtends(st, r.next)
    ensures r.next.session == st.session
  {
    var username := Trim(rawUsername);
    if username == [] || password == [] then Step(st, CreateMissingInput)
    else match st.db
      case None => Step(st, CreateNoDatabase)
      case Some(s) =>
        var failData := map["attemptedUser" := Some(username), "admin" := st.session.currentUser];
        if HasUsername(s.users, username) then
          Step(AuditLog(st, env.now, UserCreateFail, DUPLICATE_MESSAGE, false, failData), DuplicateUsername)
        else if addFails then
          Step(AuditLog(st, env.now, UserCreateFail, GENERIC_CREATE_MESSAGE, false, failData), CreateStoreError)
        else
          var added := st.(db := Some(AddUser(s, Issue(env, username, password, role))));
          Step(AuditLog(added, env.now, UserCreateSuccess,
                        "New user " + username + " created with role " + RoleName(role) + ".",
                        true, map["admin" := st.session.currentUser, "newUser" := Some(username)]),
               UserCreated)
  }

  /** Creating an operator whose ID is taken fails on the unique index: the users store is
      unchanged and one `USER_CREATE_FAIL` entry carries the duplicate-specific message,
      which differs from the generic failure message. */
  lemma DuplicateCreateFails(st: State, env: Env, rawUsername: string, password: string, role: Role, addFails: bool)
    requires st.db.Some?
    requires Trim(rawUsername) != [] && password != []
    requires HasUsername(st.db.value.users, Trim(rawUsername))
    ensures var r := HandleUserCreation(st, env, rawUsername, password, role, addFails);
            && r.outcome == DuplicateUsername
            && r.next.db.Some?
            && r.next.db.value.users == st.db.value.users
            && r.next.db.value.audit
               == st.db.value.audit
                  + [AuditEntry(env.now, UserCreateFail, DUPLICATE_MESSAGE, false,
                                map["attemptedUser" := Some(Trim(rawUsername)), "admin" := st.session.currentUser])]
            && DUPLICATE_MESSAGE != GENERIC_CREATE_MESSAGE
  {
  }

  /** An `add` that fails for another reason also leaves the users store unchanged, and its
      one `USER_CREATE_FAIL` entry carries the generic message instead. */
  lemma GenericCreateFails(st: State, env: Env, rawUsername: string, password: string, role: Role)
    requires st.db.Some?
    requires Trim(rawUsername) != [] && password != []
    requires !HasUsername(st.db.value.users, Trim(rawUsername))
    ensures var r := HandleUserCreation(st, env, rawUsername, password, role, true);
            && r.outcome == CreateStoreError
            && r.next.db.Some?
            && r.next.db.value.users == st.db.value.users
            && r.next.db.value.audit
               == st.db.value.audit
                  + [AuditEntry(env.now, UserCreateFail, GENERIC_CREATE_MESSAGE, false,
                                map["attemptedUser" := Some(Trim(rawUsername)), "admin" := st.session.currentUser])]
  {
  }

  /** A successful creation adds exactly one record: the trimmed ID with the requested role,
      a key derived from the fresh salt and the global work factor; every other record
      stays as it was, and one `USER_CREATE_SUCCESS` entry is appended. */
  lemma CreateAddsExactlyOne(st: State, env: Env, rawUsername: string, password: string, role: Role)
    requires Valid(st) && st.db.Some?
    requires Trim(rawUsername) != [] && password != []
    requires !HasUsername(st.db.value.users, Trim(rawUsername))
    ensures var r := HandleUserCreation(st, env, rawUsername, password, role, false);
            var s := st.db.value;
            var id := s.nextUserId;
            && r.outcome == UserCreated
            && r.next.db.Some?
            && id !in s.users
            && r.next.db.value.users.Keys == s.users.Keys + {id}
            && |r.next.db.value.users| == |s.users| + 1
            && r.next.db.value.users[id]
               == UserRecord(Trim(rawUsername), env.kdf(password, env.salt, PBKDF2_ITERATIONS), env.salt,
                             PBKDF2_ITERATIONS, Some(role))
            && (forall other :: other in s.users ==> r.next.db.value.users[other] == s.users[other])
            && |r.next.db.value.audit| == |s.audit| + 1
            && r.next.db.value.audit[..|s.audit|] == s.audit
            && r.next.db.value.audit[|s.audit|].kind == UserCreateSuccess
  {
  }

  /** Creation keeps the store's guarantees: the unique index admits no second record
      with the same ID. */
  lemma CreatePreservesValid(st: State, env: Env, rawUsername: string, password: string, role: Role, addFails: bool)
    requires Valid(st)
    ensures Valid(HandleUserCreation(st, env, rawUsername, password, role, addFails).next)
  {
  }

  // ---------------------------------------------------------------------------------------
  // Password change

  /** The two forms of the password panel: the session operator's own key (new key and its
      confirmation), or a forced reset of a named operator's key. */
  datatype PasswordMode =
    | SelfChange(newPassword: string, confirmation: string)
    | ForcedReset(rawUsername: string, newPassword: string)

  datatype PasswordOutcome =
    | PasswordChanged
    | PasswordInputRejected    // self: empty or mismatched; forced: empty ID or key
    | PasswordResetCancelled   // forced: the confirmation was declined
    | PasswordTargetMissing    // no operator with that ID
    | PasswordLookupFailed     // no session operator: `index.get(null)` throws and is caught
    | PasswordNoDatabase
    | PasswordSaveAborted      // as written only: the `put` runs after the transaction committed

  /** Whether the form's fields pass the mode's checks. */
  predicate PasswordInputAccepted(mode: PasswordMode)
  {
    match mode
    case SelfChange(p, c) => p != [] && p == c
    case ForcedReset(u, p) => Trim(u) != [] && p != []
  }

  /** The operator whose key is changed: the session's own operator, or the trimmed ID. */
  function PasswordTarget(st: State, mode: PasswordMode): Option<string>
  {
    match mode
    case SelfChange(_, _) => st.session.currentUser
    case ForcedReset(u, _) => Some(Trim(u))
  }

  /** The word the success message uses for each mode. */
  function ActionName(mode: PasswordMode): string
  {
    if mode.SelfChange? then "Clave Personal" else "Restablecimiento Forzado"
  }

  /** `handleChangePassword(mode)`; `confirmed` answers the forced reset's confirmation.
      Looking up a `null` operator ID throws inside the `try` and is caught. */
  function HandleChangePassword(st: State, env: Env, mode: PasswordMode, confirmed: bool): (r: Step<PasswordOutcome>)
    ensures r.outcome == PasswordInputRejected <==> !PasswordInputAccepted(mode)
    ensures r.outcome == PasswordResetCancelled <==> PasswordInputAccepted(mode) && mode.ForcedReset? && !confirmed
    ensures r.outcome == PasswordChanged || r.outcome == PasswordTargetMissing ==>
              PasswordInputAccepted(mode) && (mode.ForcedReset? ==> confirmed) && st.db.Some? && PasswordTarget(st, mode).Some?
    ensures LogExtends(st, r.next)
    ensures r.outcome != PasswordChanged && r.outcome != PasswordTargetMissing ==> r.next == st
    ensures r.next.session == st.session
  {
    if !PasswordInputAccepted(mode) then Step(st, PasswordInputRejected)
    else if mode.ForcedReset? && !confirmed then Step(st, PasswordResetCancelled)
    else match st.db
      case None => Step(st, PasswordNoDatabase)
      case Some(s) =>
        match PasswordTarget(st, mode)
        case None => Step(st, PasswordLookupFailed)
        case Some(username) =>
          match FindUser(s, username)
          case None =>
            Step(AuditLog(st, env.now, PasswordChangeFail,
                          "Attempt to reset password for non-existent user " + username + ".",
                          false, map["admin" := st.session.currentUser]),
                 PasswordTargetMissing)
          case Some(id) =>
            var rec := s.users[id].(salt := env.salt, passwordHash := HashPassword(env.kdf, mode.newPassword, env.salt));
            var saved := st.(db := Some(s.(users := s.users[id := rec])));
            Step(AuditLog(saved, env.now, PasswordChangeSuccess,
                          ActionName(mode) + " success for user " + username + ".",
                          true, map["admin" := st.session.currentUser, "targetUser" := Some(username)]),
                 PasswordChanged)
  }

  /** A change aimed at an operator that does not exist appends one `PASSWORD_CHANGE_FAIL`
      entry and leaves the users store alone. */
  lemma PasswordChangeMissingTargetFails(st: State, env: Env, mode: PasswordMode, confirmed: bool, name: string)
    requires Valid(st) && st.db.Some?
    requires PasswordInputAccepted(mode) && (mode.ForcedReset? ==> confirmed)
    requires PasswordTarget(st, mode) == Some(name)
    requires !HasUsername(st.db.value.users, name)
    ensures var r := HandleChangePassword(st, env, mode, confirmed);
            && r.outcome == PasswordTargetMissing
            && r.next.db.Some?
            && r.next.db.value.users == st.db.value.users
            && |r.next.db.value.audit| == |st.db.value.audit| + 1
            && r.next.db.value.audit[..|st.db.value.audit|] == st.db.value.audit
            && r.next.db.value.audit[|st.db.value.audit|].kind == PasswordChangeFail
            && !r.next.db.value.audit[|st.db.value.audit|].success
  {
  }

  /** A successful change replaces only the target's salt and hash: the new hash is the new
      key derived with the fresh salt, while username, role and iterations are kept and
      every other record is untouched. */
  lemma PasswordChangeOnlyResalts(st: State, env: Env, mode: PasswordMode, confirmed: bool, id: nat)
    requires Valid(st) && st.db.Some? && id in st.db.value.users
    requires PasswordInputAccepted(mode) && (mode.ForcedReset? ==> confirmed)
    requires PasswordTarget(st, mode) == Some(st.db.value.users[id].username)
    ensures var r := HandleChangePassword(st, env, mode, confirmed);
            var old_users := st.db.value.users;
            && r.outcome == PasswordChanged
            && r.next.db.Some?
            && r.next.db.value.users.Keys == old_users.Keys
            && r.next.db.value.users[id]
               == old_users[id].(salt := env.salt,
                                 passwordHash := env.kdf(mode.newPassword, env.salt, PBKDF2_ITERATIONS))
            && r.next.db.value.users[id].username == old_users[id].username
            && r.next.db.value.users[id].role == old_users[id].role
            && r.next.db.value.users[id].iterations == old_users[id].iterations
            && (forall other :: other in old_users && other != id ==> r.next.db.value.users[other] == old_users[other])
            && |r.next.db.value.audit| == |st.db.value.audit| + 1
            && r.next.db.value.audit[..|st.db.value.audit|] == st.db.value.audit
            && r.next.db.value.audit[|st.db.value.audit|].kind == PasswordChangeSuccess
  {
  }

  /** Password changes never rename anyone, so they keep the store's guarantees. */
  lemma PasswordChangePreservesValid(st: State, env: Env, mode: PasswordMode, confirmed: bool)
    requires Valid(st)
    ensures Valid(HandleChangePassword(st, env, mode, confirmed).next)
  {
  }

  /** `handleChangePassword` as the application runs it. The lookup's success handler awaits
      `hashPassword` before calling `put`; the `users` transaction, left without a pending
      request, commits in the meantime, so the `put` throws and the rejection goes unhandled.
      Whenever the intended operation would save, nothing is saved and nothing is logged. */
  function HandleChangePasswordAsWritten(st: State, env: Env, mode: PasswordMode, confirmed: bool): (r: Step<PasswordOutcome>)
    ensures r.outcome != PasswordChanged
    ensures r.outcome != PasswordTargetMissing ==> r.next == st
    ensures st.db.Some? ==> r.next.db.Some? && r.next.db.value.users == st.db.value.users
    ensures LogExtends(st, r.next)
  {
    var intended := HandleChangePassword(st, env, mode, confirmed);
    if intended.outcome == PasswordChanged then Step(st, PasswordSaveAborted) else intended
  }

  /** The password change as it runs keeps the store's guarantees too: it saves nothing. */
  lemma PasswordChangeAsWrittenPreservesValid(st: State, env: Env, mode: PasswordMode, confirmed: bool)
    requires Valid(st)
    ensures Valid(HandleChangePasswordAsWritten(st, env, mode, confirmed).next)
  {
  }

  /** The discrepancy: for any existing target and accepted input, the intended operation
      re-salts the record and logs `PASSWORD_CHANGE_SUCCESS`, while the code as written leaves
      the record and the audit log exactly as they were. */
  lemma ChangePasswordAsWrittenNeverSaves(st: State, env: Env, mode: PasswordMode, confirmed: bool, id: nat)
    requires Valid(st) && st.db.Some? && id in st.db.value.users
    requires PasswordInputAccepted(mode) && (mode.ForcedReset? ==> confirmed)
    requires PasswordTarget(st, mode) == Some(st.db.value.users[id].username)
    ensures var intended := HandleChangePassword(st, env, mode, confirmed);
            var written := HandleChangePasswordAsWritten(st, env, mode, confirmed);
            && intended.outcome == PasswordChanged
            && intended.next.db.value.users[id].salt == env.salt
            && |intended.next.db.value.audit| == |st.db.value.audit| + 1
            && written == Step(st, PasswordSaveAborted)
            && written.next.db.value.users[id] == st.db.value.users[id]
            && written.next.db.value.audit == st.db.value.audit
  {
    PasswordChangeOnlyResalts(st, env, mode, confirmed, id);
  }

  // ---------------------------------------------------------------------------------------
  // Audit view

  /** `loadAuditLog`: walk a `prev` cursor from the newest entry, stopping after
      `VIEW_LIMIT` rows or when the cursor runs out. */
  method LoadAuditLog(st: State) returns (view: seq<AuditEntry>)
    ensures st.db.None? ==> view == []
    ensures st.db.Some? ==> |view| == Min(|st.db.value.audit|, VIEW_LIMIT)
    ensures st.db.Some? ==> forall k :: 0 <= k < |view| ==> view[k] == st.db.value.audit[|st.db.value.audit| - 1 - k]
    ensures st.db.Some? ==> view == NewestFirst(st.db.value.audit, VIEW_LIMIT)
  {
    view := [];
    if st.db.None? {
      return;
    }
    var log := st.db.value.audit;
    var cursor := |log|;
    var count := 0;
    while cursor > 0 && count < VIEW_LIMIT
      invariant 0 <= cursor <= |log|
      invariant count == |log| - cursor == |view|
      invariant count <= VIEW_LIMIT
      invariant forall k :: 0 <= k < |view| ==> view[k] == log[|log| - 1 - k]
    {
      cursor := cursor - 1;
      view := view + [log[cursor]];
      count := count + 1;
    }
    assert |view| == Min(|log|, VIEW_LIMIT);
  }
}

=== FILE: audit.dfy ===
/** The `auditLog` object store: entries `AUDIT.log` writes and the newest-first view of them. */
module Audit {
  import opened Common

  /** The `type` tags the access-control core records (`REGISTER_SUCCESS`, `LOGIN_SUCCESS`,
      `USER_CREATE_SUCCESS`, `USER_CREATE_FAIL`, `USER_ROLE_CHANGE`, `USER_DELETE_SUCCESS`,
      `PASSWORD_CHANGE_SUCCESS`, `PASSWORD_CHANGE_FAIL`, `LOG_CLEANUP_SUCCESS`). */
  datatype EventType =
    | RegisterSuccess
    | LoginSuccess
    | UserCreateSuccess
    | UserCreateFail
    | UserRoleChange
    | UserDeleteSuccess
    | PasswordChangeSuccess
    | PasswordChangeFail
    | LogCleanupSuccess

  /** The `data` object: keys to values, `None` for a `null` or `undefined` value. */
  type AuditData = map<string, Option<string>>

  /** One stored entry; `timestamp` is the host clock's `Date.now()`, kept opaque. */
  datatype AuditEntry = AuditEntry(timestamp: int, kind: EventType, message: string, success: bool, data: AuditData)

  /** The admin view reads at most this many entries. */
  const VIEW_LIMIT: nat := 50

  /** The first `limit` entries met by a cursor opened in direction `prev`, i.e. newest first. */
  function NewestFirst(log: seq<AuditEntry>, limit: nat): (v: seq<AuditEntry>)
    ensures |v| == Min(|log|, limit)
    ensures forall k :: 0 <= k < |v| ==> v[k] == log[|log| - 1 - k]
    decreases limit
  {
    if |log| == 0 || limit == 0 then []
    else [log[|log| - 1]] + NewestFirst(log[..|log| - 1], limit - 1)
  }

  /** An entry just appended heads the view; the older view follows, one shorter. */
  lemma {:induction false} NewestFirstAfterAppend(log: seq<AuditEntry>, e: AuditEntry, limit: nat)
    ensures NewestFirst(log + [e], limit + 1) == [e] + NewestFirst(log, limit)
  {
  }

  /** When the whole log fits under the limit, the view lists exactly the log's entries. */
  lemma NewestFirstKeepsWholeLog(log: seq<AuditEntry>, limit: nat)
    ensures |log| <= limit ==> multiset(NewestFirst(log, limit)) == multiset(log)
  {
    if |log| <= limit {
      ReverseKeepsEntries(log, NewestFirst(log, limit));
    }
  }

  /** A sequence listed back to front holds the same entries. */
  lemma {:induction false} ReverseKeepsEntries(log: seq<AuditEntry>, rev: seq<AuditEntry>)
    requires |rev| == |log|
    requires forall k :: 0 <= k < |rev| ==> rev[k] == log[|log| - 1 - k]
    ensures multiset(rev) == multiset(log)
    decreases |log|
  {
    if |log| > 0 {
      var front := log[..|log| - 1];
      ReverseKeepsEntries(front, rev[1..]);
      assert log == front + [log[|log| - 1]];
      assert rev == [rev[0]] + rev[1..];
    }
  }
}

=== FILE: common.dfy ===
/** Value types shared by every part of the model. */
module Common {

  /** A value that may be absent: JavaScript's `null` / `undefined`. */
  datatype Option<+T> = None | Some(value: T)

  /** One element of a `Uint8Array`. */
  newtype byte = x: int | 0 <= x < 256

  type Bytes = seq<byte>

  function Min(a: int, b: int): int
  {
    if a < b then a else b
  }
}

=== FILE: credentials.dfy ===
/** Credential derivation and comparison: `AuthMancer.generateSalt`, `hashPassword`
    and the fallback hash comparison of `attemptLogin`. */
module Credentials {
  import opened Common

  /** The global PBKDF2 work factor. */
  const PBKDF2_ITERATIONS: nat := 200000
  /** `generateSalt` fills a 16-byte array. */
  const SALT_LENGTH: nat := 16

  /** A value `generateSalt` can return; which one is up to the host's random source. */
  type Salt = s: Bytes | |s| == SALT_LENGTH witness seq(SALT_LENGTH, _ => 0)

  /** PBKDF2 with SHA-512 over the UTF-8 password, as the host's Web Crypto computes it.
      Left uninterpreted: (password, salt, iterations) -> derived bits. */
  type Kdf = (string, Bytes, nat) -> Bytes

  /** `hashPassword`: always derives with the global work factor, whatever work factor a
      stored record names. */
  function HashPassword(kdf: Kdf, password: string, salt: Bytes): (r: Bytes)
    ensures r == kdf(password, salt, 200000)
  {
    kdf(password, salt, PBKDF2_ITERATIONS)
  }

  /** `calculated.every((val, i) => val === stored[i])` from index `i` on. */
  function EveryAgrees(calculated: Bytes, stored: Bytes, i: nat): (r: bool)
    requires |calculated| == |stored| && i <= |calculated|
    ensures r <==> forall k :: i <= k < |calculated| ==> calculated[k] == stored[k]
    decreases |calculated| - i
  {
    if i == |calculated| then true
    else calculated[i] == stored[i] && EveryAgrees(calculated, stored, i + 1)
  }

  /** The comparison used when no timing-safe primitive exists: lengths first, then every byte. */
  function HashesMatch(calculated: Bytes, stored: Bytes): (r: bool)
    ensures r <==> |calculated| == |stored| &&
                   forall k :: 0 <= k < |calculated| ==> calculated[k] == stored[k]
  {
    |calculated| == |stored| && EveryAgrees(calculated, stored, 0)
  }

  /** The fallback comparison is exactly byte-sequence equality. */
  lemma HashesMatchIsEquality(calculated: Bytes, stored: Bytes)
    ensures HashesMatch(calculated, stored) <==> calculated == stored
  {
  }
}

=== FILE: directory.dfy ===
/** The `users` object store: records keyed by an auto-incremented id, with a unique
    index on `username`. */
module Directory {
  import opened Common

  /** The roles the admin console offers. */
  datatype Role = Viewer | Uploader | Admin

  /** The lower-case name the console and the audit messages use. */
  function RoleName(r: Role): string
  {
    match r
    case Viewer => "viewer"
    case Uploader => "uploader"
    case Admin => "admin"
  }

  /** A stored operator. `role` is `None` for a record written before roles existed. */
  datatype UserRecord = UserRecord(username: string, passwordHash: Bytes, salt: Bytes, iterations: nat, role: Option<Role>)

  type Users = map<nat, UserRecord>

  /** The unique index on `username`: no two ids share a username. */
  predicate UniqueUsernames(users: Users)
  {
    forall i, j :: i in users && j in users && users[i].username == users[j].username ==> i == j
  }

  predicate HasUsername(users: Users, name: string)
  {
    exists id :: id in users && users[id].username == name
  }

  /** The first id in `[lo, hi)` whose record carries `name`. */
  function FindFrom(users: Users, name: string, lo: nat, hi: nat): (r: Option<nat>)
    ensures r.Some? ==> lo <= r.value < hi && r.value in users && users[r.value].username == name
    ensures r.Some? ==> forall id :: lo <= id < r.value && id in users ==> users[id].username != name
    ensures r.None? ==> forall id :: lo <= id < hi && id in users ==> users[id].username != name
    decreases hi - lo
  {
    if lo >= hi then None
    else if lo in users && users[lo].username == name then Some(lo)
    else FindFrom(users, name, lo + 1, hi)
  }

  /** `index('username').get(name)`, scanning every id below the key generator's `bound`. */
  function Lookup(users: Users, bound: nat, name: string): Option<nat>
  {
    FindFrom(users, name, 0, bound)
  }

  /** With every key below `bound` and usernames unique, the lookup finds exactly the
      record carrying `name`, and nothing when no record carries it. */
  lemma LookupFindsOwner(users: Users, bound: nat, name: string)
    requires forall id :: id in users ==> id < bound
    requires UniqueUsernames(users)
    ensures Lookup(users, bound, name).None? <==> !HasUsername(users, name)
    ensures forall id :: id in users && users[id].username == name ==> Lookup(users, bound, name) == Some(id)
  {
  }

  /** `userRecord.role || 'viewer'`: a record without a role is treated as a viewer. */
  function EffectiveRole(role: Option<Role>): Role
  {
    match role
    case Some(x) => x
    case None => Viewer
  }
}

=== FILE: gallery.dfy ===
/** The application state `GothicGallery` holds: the database handle with its `users` and
    `auditLog` stores, and the session fields `currentUser` / `currentUserRole`. Also
    `AUDIT.log`, which writes through that handle, and `handleLogCleanup`. */
module Gallery {
  import opened Common
  import opened Credentials
  import opened Audit
  import opened Directory

  /** The open database: the users store, its key generator, and the audit log in insertion order. */
  datatype Store = Store(users: Users, nextUserId: nat, audit: seq<AuditEntry>)

  /** `currentUserRole`: `'guest'` until a login grants a role. */
  datatype SessionRole = Guest | Operator(role: Role)

  datatype Session = Session(currentUser: Option<string>, currentUserRole: SessionRole)

  /** The constructor's `currentUser = null`, `currentUserRole = 'guest'`. */
  const InitialSession: Session := Session(None, Guest)

  /** `db` is `None` until the database has opened. */
  datatype State = State(db: Option<Store>, session: Session)

  /** What the host supplies to one step: the key-derivation function, the salt
      `generateSalt` would return next, and the clock reading `Date.now()`. */
  datatype Env = Env(kdf: Kdf, salt: Salt, now: int)

  /** A transition's successor state together with what the operator is told. */
  datatype Step<O> = Step(next: State, outcome: O)

  /** What the database guarantees: keys stay below the key generator and the
      username index is unique. */
  predicate ValidStore(s: Store)
  {
    && (forall id :: id in s.users ==> id < s.nextUserId)
    && UniqueUsernames(s.users)
  }

  predicate Valid(st: State)
  {
    st.db.Some? ==> ValidStore(st.db.value)
  }

  /** The audit log is append-only: when `before` has an open database, `after` has one too,
      and its log starts with every entry of `before`'s log, in order. */
  predicate LogExtends(before: State, after: State)
  {
    before.db.Some? ==>
      && after.db.Some?
      && |before.db.value.audit| <= |after.db.value.audit|
      && after.db.value.audit[..|before.db.value.audit|] == before.db.value.audit
  }

  /** Two append-only steps in a row are append-only. */
  lemma LogExtendsTransitive(a: State, b: State, c: State)
    requires LogExtends(a, b) && LogExtends(b, c)
    ensures LogExtends(a, c)
  {
    if a.db.Some? {
      var la, lb, lc := a.db.value.audit, b.db.value.audit, c.db.value.audit;
      assert lc[..|la|] == lc[..|lb|][..|la|];
    }
  }

  /** `AUDIT.log(type, message, success, data)`: appends one entry when the database is
      open, and does nothing otherwise. */
  function AuditLog(st: State, now: int, kind: EventType, message: string, success: bool, data: AuditData): (r: State)
    ensures r.session == st.session
    ensures st.db.None? ==> r == st
    ensures st.db.Some? ==> r.db.Some? && r.db.value.users == st.db.value.users
                            && r.db.value.nextUserId == st.db.value.nextUserId
    ensures st.db.Some? ==> r.db.value.audit == st.db.value.audit + [AuditEntry(now, kind, message, success, data)]
  {
    match st.db
    case None => st
    case Some(s) => st.(db := Some(s.(audit := s.audit + [AuditEntry(now, kind, message, success, data)])))
  }

  /** After `AUDIT.log` with an open database the admin view lists the new entry first,
      followed by what it listed before, one entry shorter. */
  lemma AuditLogHeadsView(st: State, now: int, kind: EventType, message: string, success: bool, data: AuditData)
    requires st.db.Some?
    ensures var r := AuditLog(st, now, kind, message, success, data);
            NewestFirst(r.db.value.audit, VIEW_LIMIT)
            == [AuditEntry(now, kind, message, success, data)] + NewestFirst(st.db.value.audit, VIEW_LIMIT - 1)
  {
  }

  /** Logging never touches the users store, so it keeps the store's guarantees. */
  lemma AuditLogPreservesValid(st: State, now: int, kind: EventType, message: string, success: bool, data: AuditData)
    requires Valid(st)
    ensures Valid(AuditLog(st, now, kind, message, success, data))
  {
  }

  /** `index('username').get(name)` on the open database. */
  function FindUser(s: Store, name: string): Option<nat>
  {
    Lookup(s.users, s.nextUserId, name)
  }

  /** `objectStore('users').add(rec)`: the key generator supplies the id. */
  function AddUser(s: Store, rec: UserRecord): (r: Store)
    ensures r.users.Keys == s.users.Keys + {s.nextUserId}
    ensures r.users == s.users[s.nextUserId := rec]
    ensures r.nextUserId == s.nextUserId + 1
    ensures r.audit == s.audit
  {
    s.(users := s.users[s.nextUserId := rec], nextUserId := s.nextUserId + 1)
  }

  /** Adding a record whose username is not yet taken keeps the store's guarantees,
      adds exactly one record, and makes the username resolve to it. */
  lemma AddUserKeepsValid(s: Store, rec: UserRecord)
    requires ValidStore(s)
    requires !HasUsername(s.users, rec.username)
    ensures ValidStore(AddUser(s, rec))
    ensures |AddUser(s, rec).users| == |s.users| + 1
    ensures FindUser(AddUser(s, rec), rec.username) == Some(s.nextUserId)
  {
  }

  /** The record `registerInitialUser` and `handleUserCreation` build: a fresh salt, the
      password derived with it, and the global work factor. */
  function Issue(env: Env, username: string, password: string, role: Role): UserRecord
  {
    UserRecord(username, HashPassword(env.kdf, password, env.salt), env.salt, PBKDF2_ITERATIONS, Some(role))
  }

  datatype CleanupOutcome = Cleaned | CleanupCancelled | CleanupNoDatabase

  /** `GothicGallery.handleLogCleanup`: after the operator confirms, clear the log and then
      record the clearing itself. Without a database the transaction call throws and
      nothing changes. */
  function HandleLogCleanup(st: State, now: int, confirmed: bool): (r: Step<CleanupOutcome>)
    ensures r.outcome != Cleaned ==> r.next == st
    ensures r.next.session == st.session
    ensures r.outcome == Cleaned <==> confirmed && st.db.Some?
  {
    if !confirmed then Step(st, CleanupCancelled)
    else match st.db
      case None => Step(st, CleanupNoDatabase)
      case Some(s) =>
        var cleared := st.(db := Some(s.(audit := [])));
        Step(AuditLog(cleared, now, LogCleanupSuccess, "Audit Log erased.", true, map["user" := st.session.currentUser]), Cleaned)
  }

  /** A completed cleanup leaves exactly one entry, the `LOG_CLEANUP_SUCCESS` it wrote,
      and the admin view then lists only that entry; the users store is untouched. */
  lemma CleanupLeavesOnlyItsEntry(st: State, now: int)
    requires st.db.Some?
    ensures var r := HandleLogCleanup(st, now, true);
            && r.next.db.Some?
            && |r.next.db.value.audit| == 1
            && r.next.db.value.audit[0].kind == LogCleanupSuccess
            && r.next.db.value.audit[0].success
            && r.next.db.value.audit[0].data == map["user" := st.session.currentUser]
            && NewestFirst(r.next.db.value.audit, VIEW_LIMIT) == r.next.db.value.audit
            && r.next.db.value.users == st.db.value.users
  {
  }

  /** Cleanup keeps the store's guarantees. */
  lemma CleanupPreservesValid(st: State, now: int, confirmed: bool)
    requires Valid(st)
    ensures Valid(HandleLogCleanup(st, now, confirmed).next)
  {
  }
}

=== FILE: lifecycle.dfy ===
/** Properties that span several operations of the access-control core. */
module Lifecycle {
  import opened Common
  import opened Text
  import opened Credentials
  import opened Directory
  import opened Gallery
  import opened Access
  import opened Admin

  /** An operator created through the console can log in right away with the same ID and
      key, and the session gets the role chosen at creation. */
  lemma CreatedOperatorCanLogIn(st: State, env: Env, later: Env, rawUsername: string, password: string, role: Role)
    requires Valid(st) && st.db.Some?
    requires Trim(rawUsername) != [] && password != []
    requires !HasUsername(st.db.value.users, Trim(rawUsername))
    requires later.kdf == env.kdf
    ensures var c := HandleUserCreation(st, env, rawUsername, password, role, false);
            var l := AttemptLogin(c.next, later, rawUsername, password);
            && c.outcome == UserCreated
            && l.outcome == LoggedIn
            && l.next.session == Session(Some(Trim(rawUsername)), Operator(role))
  {
  }

  /** After a successful password change, the target operator logs in with the new key. */
  lemma ChangedKeyLogsIn(st: State, env: Env, later: Env, mode: PasswordMode, confirmed: bool, id: nat)
    requires Valid(st) && st.db.Some? && id in st.db.value.users
    requires PasswordInputAccepted(mode) && (mode.ForcedReset? ==> confirmed)
    requires PasswordTarget(st, mode) == Some(st.db.value.users[id].username)
    requires Trim(st.db.value.users[id].username) == st.db.value.users[id].username != []
    requires later.kdf == env.kdf
    ensures var c := HandleChangePassword(st, env, mode, confirmed);
            var name := st.db.value.users[id].username;
            var l := AttemptLogin(c.next, later, name, mode.newPassword);
            && c.outcome == PasswordChanged
            && l.outcome == LoggedIn
            && l.next.session == Session(Some(name), Operator(EffectiveRole(st.db.value.users[id].role)))
  {
    var c := HandleChangePassword(st, env, mode, confirmed);
    var name := st.db.value.users[id].username;
    PasswordChangeOnlyResalts(st, env, mode, confirmed, id);
    PasswordChangePreservesValid(st, env, mode, confirmed);
    LoginChecksStoredHash(c.next, later, name, mode.newPassword, id);
  }

  /** Bootstrap happens once: after the first login registers an admin, a login under any
      other ID finds a non-empty directory and fails without creating anyone. */
  lemma BootstrapHappensOnce(st: State, env: Env, later: Env, first: string, firstKey: string, other: string, otherKey: string)
    requires Valid(st) && st.db.Some? && st.db.value.users == map[]
    requires Trim(first) != [] && firstKey != []
    requires Trim(other) != [] && otherKey != [] && Trim(other) != Trim(first)
    ensures var b := AttemptLogin(st, env, first, firstKey);
            var l := AttemptLogin(b.next, later, other, otherKey);
            && b.outcome == Registered
            && b.next.session.currentUserRole == Operator(Admin)
            && l == Step(b.next, UnknownOperator)
  {
  }

  // ---------------------------------------------------------------------------------------
  // Sessions of console actions

  /** One action an operator takes in the application, with the answers given to its
      `confirm()` dialogs (and, for creation, whether the store's `add` fails). */
  datatype Action =
    | LogIn(rawUsername: string, password: string)
    | ChangeRole(id: nat, newRole: Role, confirmed: bool)
    | RemoveUser(id: nat, confirmed: bool)
    | CreateUser(rawUsername: string, password: string, role: Role, addFails: bool)
    | ChangeKey(mode: PasswordMode, confirmed: bool)
    | ClearLog(confirmed: bool)

  /** The state after one action. */
  function Perform(st: State, env: Env, a: Action): State
  {
    match a
    case LogIn(u, p) => AttemptLogin(st, env, u, p).next
    case ChangeRole(id, role, c) => UpdateUserRole(st, env.now, id, role, c).next
    case RemoveUser(id, c) => DeleteUser(st, env.now, id, c).next
    case CreateUser(u, p, role, fails) => HandleUserCreation(st, env, u, p, role, fails).next
    case ChangeKey(mode, c) => HandleChangePassword(st, env, mode, c).next
    case ClearLog(c) => HandleLogCleanup(st, env.now, c).next
  }

  /** Only the log cleanup removes audit entries: every other action keeps the whole log
      as it was and at most appends to it, while a confirmed cleanup leaves a single entry. */
  lemma OnlyCleanupRewritesLog(st: State, env: Env, a: Action)
    ensures !a.ClearLog? ==> LogExtends(st, Perform(st, env, a))
    ensures a.ClearLog? && !a.confirmed ==> Perform(st, env, a) == st
    ensures a.ClearLog? && a.confirmed && st.db.Some? ==> |Perform(st, env, a).db.value.audit| == 1
  {
    if a.ClearLog? && a.confirmed && st.db.Some? {
      CleanupLeavesOnlyItsEntry(st, env.now);
    }
  }

  /** Every action keeps the database's guarantees. */
  lemma EveryActionPreservesValid(st: State, env: Env, a: Action)
    requires Valid(st)
    ensures Valid(Perform(st, env, a))
  {
    match a
    case LogIn(u, p) => LoginPreservesValid(st, env, u, p);
    case ChangeRole(id, role, c) => RoleChangePreservesValid(st, env.now, id, role, c);
    case RemoveUser(id, c) => DeletePreservesValid(st, env.now, id, c);
    case CreateUser(u, p, role, fails) => CreatePreservesValid(st, env, u, p, role, fails);
    case ChangeKey(mode, c) => PasswordChangePreservesValid(st, env, mode, c);
    case ClearLog(c) => CleanupPreservesValid(st, env.now, c);
  }

  /** The state after a sequence of actions, the i-th taken under the i-th environment. */
  function Run(st: State, envs: seq<Env>, actions: seq<Action>): State
    requires |envs| == |actions|
    decreases |actions|
  {
    if actions == [] then st else Run(Perform(st, envs[0], actions[0]), envs[1..], actions[1..])
  }

  /** Over any run without a log cleanup, the audit log only grows: every entry present at
      the start is still there, at the same position. */
  lemma {:induction false} RunWithoutCleanupKeepsLog(st: State, envs: seq<Env>, actions: seq<Action>)
    requires |envs| == |actions|
    requires forall i :: 0 <= i < |actions| ==> !actions[i].ClearLog?
    ensures LogExtends(st, Run(st, envs, actions))
    decreases |actions|
  {
    if actions != [] {
      var mid := Perform(st, envs[0], actions[0]);
      OnlyCleanupRewritesLog(st, envs[0], actions[0]);
      RunWithoutCleanupKeepsLog(mid, envs[1..], actions[1..]);
      LogExtendsTransitive(st, mid, Run(mid, envs[1..], actions[1..]));
    }
  }

  /** Any run of actions keeps the database's guarantees. */
  lemma {:induction false} RunPreservesValid(st: State, envs: seq<Env>, actions: seq<Action>)
    requires |envs| == |actions|
    requires Valid(st)
    ensures Valid(Run(st, envs, actions))
    decreases |actions|
  {
    if actions != [] {
      EveryActionPreservesValid(st, envs[0], actions[0]);
      RunPreservesValid(Perform(st, envs[0], actions[0]), envs[1..], actions[1..]);
    }
  }
}

=== FILE: text.dfy ===
/** `String.prototype.trim`, which every form field holding an operator ID goes through. */
module Text {

  /** The characters trim strips: ECMAScript WhiteSpace (TAB, VT, FF, ZWNBSP and
      the Unicode space separators) and LineTerminator (LF, CR, LS, PS). */
  predicate IsTrimmable(c: char)
  {
    || c == '\t' || c == '\n' || c == '\U{000B}' || c == '\U{000C}' || c == '\r'
    || c == ' ' || c == '\U{00A0}' || c == '\U{1680}' || ('\U{2000}' <= c <= '\U{200A}')
    || c == '\U{2028}' || c == '\U{2029}' || c == '\U{202F}' || c == '\U{205F}'
    || c == '\U{3000}' || c == '\U{FEFF}'
  }

  /** Length of the longest all-whitespace prefix. */
  function LeadingSpace(s: string): (n: nat)
    ensures n <= |s|
    ensures forall k :: 0 <= k < n ==> IsTrimmable(s[k])
    ensures n == |s| || !IsTrimmable(s[n])
  {
    if |s| == 0 || !IsTrimmable(s[0]) then 0 else 1 + LeadingSpace(s[1..])
  }

  /** Length of the longest all-whitespace suffix. */
  function TrailingSpace(s: string): (n: nat)
    ensures n <= |s|
    ensures forall k :: |s| - n <= k < |s| ==> IsTrimmable(s[k])
    ensures n == |s| || !IsTrimmable(s[|s| - 1 - n])
  {
    if |s| == 0 || !IsTrimmable(s[|s| - 1]) then 0 else 1 + TrailingSpace(s[..|s| - 1])
  }

  /** `s.trim()`: the part of `s` between its leading and trailing whitespace. */
  function Trim(s: string): (r: string)
    ensures LeadingSpace(s) + |r| <= |s|
    ensures r == s[LeadingSpace(s)..LeadingSpace(s) + |r|]
    ensures forall k :: LeadingSpace(s) + |r| <= k < |s| ==> IsTrimmable(s[k])
    ensures r != [] ==> !IsTrimmable(r[0]) && !IsTrimmable(r[|r| - 1])
    ensures r == [] <==> forall k :: 0 <= k < |s| ==> IsTrimmable(s[k])
  {
    var lead := LeadingSpace(s);
    if lead == |s| then []
    else
      var trail := TrailingSpace(s);
      s[lead..|s| - trail]
  }

  /** Trimming twice is trimming once. */
  lemma TrimIdempotent(s: string)
    ensures Trim(Trim(s)) == Trim(s)
  {
  }
}
